=== FILE: README.md ===
# shorts-maker decision core, in Dafny

A model of the decision logic of `shorts.py`. That script turns a long gameplay recording into vertical short clips. The model covers five pieces of logic:

- **Merging scenes** (`combine_scenes`). One greedy pass over the detected scenes. It ignores a short first or last scene. It glues short scenes into a "small" run, which is emitted once it reaches `max_combined_scene_length`. It glues long scenes into a "large" run. When a run is interrupted by the other kind of scene, it is kept only if it reaches the midpoint of the minimum and maximum short length.
- **Choosing windows** (`process_video`). The merged intervals are stably sorted longest first and cut to `scene_limit`. Then a short is drawn inside each kept interval, or inside the whole video when no interval is kept.
- **Geometry** (`crop_clip`, `select_background_resolution`). The crop size that brings a frame to the target ratio, and the six-band 9:16 canvas.
- **Layout** (`get_final_clip`). Whether to crop, what size the foreground ends up, and which blurred fill goes behind it: square, 9:16, or none.
- **Rendering** (`render_video`). Bounded retries around the encoder, and the frame-rate cap.

Modules:

- `Wrappers`: `Option` and minimum helpers.
- `Config`: `ProcessingConfig` and its midpoint.
- `Timeline`: `Interval`, a `(start, end)` pair in seconds, used for detected scenes and for merged runs.
- `Geometry`, `Layout`, `SceneMerger`, `WindowSelection`, `Render`: one per piece above.

Modelling choices:

- **Runs as index spans.** Each run is a `Span(first, last)` of scene indices. Its interval is the start of scene `first` to the end of scene `last`. That is exactly what the source's two-element list of time points holds. Spans let the proofs state ordering and disjointness.
- **Exact arithmetic.** Durations are exact reals (see "## Left out" for where the source's floats differ). Pixel sizes are integers. Ratios are compared by cross-multiplication (`width * ratio_h > ratio_w * height` instead of `width / height > ratio_w / ratio_h`).
- **Rounding.** Python's `round` is modelled as round-half-to-even on the exact quotient (`RoundHalfEven`).
- **Randomness.** The values `random.randint` returns are parameters. Each must lie in the range it is drawn from. An empty range, where `randint` raises `ValueError`, is modelled as `raised`.
- **Retries.** The encoder's behaviour is a sequence of per-call outcomes.

## Model

| member | source | states |
|---|---|---|
| Config.MiddleShortLength | shorts.py:52-56 | the midpoint is equidistant from the minimum and maximum short length and lies between them when min <= max |
| Geometry.RoundHalfEven | shorts.py:106 | the result is the integer nearest to n/d (within one half), and on an exact tie it is the even one, as Python's `round` |
| Geometry.CropClip | shorts.py:101-122 | a source wider than the target ratio keeps its height and gets the width height*rw/rh rounded half to even, which never exceeds its width; otherwise it keeps its width and gets the height width*rh/rw rounded half to even, never above its height; a source already at the ratio keeps its size; the centre is the fractions times the original size |
| Geometry.CropHeightTieExample | shorts.py:115 | on the height branch, 83x125 to 20:30 is the exact tie 124.5 and gets the even height 124 |
| Geometry.CropTieExample | shorts.py:105-106 | cropping 1920x1080 to 9:16 hits the tie 607.5 and gets the even width 608 |
| Geometry.CropToSquareExample | tests/test_shorts.py:60-63 | 1920x1080 cropped to 1:1 at the middle is 1080x1080 centred at (960, 540) |
| Geometry.BackgroundResolution | shorts.py:149-162 | every canvas is exactly 9:16 and has one of the six band widths |
| Geometry.BackgroundMatchesBands | shorts.py:149-162 | the canvas width is the band width of the first limit (840, 1020, 1320, 1680, 2040) the width has not reached, per an independent table lookup |
| Geometry.BackgroundMonotonic | shorts.py:149-162 | a wider foreground never gets a smaller canvas |
| Geometry.BackgroundExamples | tests/test_shorts.py:54-57 | 800, 1500 and 2100 give the tiers the repository's tests expect; the band limits are half-open (839 and 840, 2039 and 2040) |
| Layout.FinalClipPlan | shorts.py:173-205 | the crop happens exactly when the source is wider than the target ratio, and the foreground is then exactly the `crop_clip` box, which only narrows the source; the canvas is the tier of the post-crop width and the foreground is resized to its width; a landscape-or-square foreground gets a square fill as wide as the canvas, cropped 1:1 from the uncropped sub-clip; a portrait foreground narrower than 9:16 gets a full-canvas fill cropped 9:16; otherwise there is no fill |
| Layout.FillGeometry | shorts.py:186-203 | the resized foreground fits inside the square fill; with the 9:16 fill it is taller than the canvas, so it covers the fill; with no fill it is taller than wide yet no taller than the canvas |
| Layout.DefaultLandscapeExample | shorts.py:176-196 | with the default 1:1 target a 1920x1080 source becomes a 1080x1080 foreground on a 1080x1920 canvas with a 1080 square fill |
| SceneMerger.ExactDurationExample | shorts.py:216-225 | a scene from 40/30 s to 490/30 s lasts exactly 15 s and is not short under a 15 s minimum |
| SceneMerger.StepRules | shorts.py:215-259 | a skipped scene leaves the state untouched; a kept short scene joins the small run, which is emitted and closed exactly when it was already open and now reaches the cap, and it closes the large run, which is emitted exactly when it reaches the midpoint; a kept long scene joins the uncapped large run and closes the small run, emitted exactly when it reaches the midpoint; emitted runs are never retracted |
| SceneMerger.StepKeepsInv | shorts.py:215-259 | each iteration keeps the loop invariant: at most one run open, the open run of one kind and ending at the scene just processed, emitted runs ordered, disjoint, uniform and long enough |
| SceneMerger.FoldKeepsInv | shorts.py:215-259 | the whole loop keeps that invariant |
| SceneMerger.FoldOutGrows | shorts.py:215-259 | the loop only ever appends to the merged list |
| SceneMerger.EmittedRunsKept | shorts.py:215-277 | every run emitted during the first i scenes is in the result, and the result is exactly the runs the loop emitted followed by the run still open at the end when it reaches the midpoint |
| SceneMerger.FlushKeepsOnlyLongRun | shorts.py:261-277 | after the loop at most one run is still open, and the final flush appends it exactly when it reaches the midpoint |
| SceneMerger.CombineSpansGood | shorts.py:208-277 | after the final flush the runs are in input order with disjoint index ranges, each made only of kept scenes of one kind, each reaching the midpoint or, made of short scenes only, the cap, and there are at most as many runs as scenes |
| SceneMerger.CombineScenes | shorts.py:208-277 | the merged list is no longer than the scene list; every interval lasts at least min(midpoint, cap) and runs from the start of the first to the end of the last scene of one emitted run; the runs are in input order, disjoint, each of kept scenes of one kind, and each reached the midpoint or, made of short scenes only, the cap |
| SceneMerger.MergedLongEnough | shorts.py:230-277 | every merged interval spans a run that reached the midpoint, or a run of short scenes only that reached the cap; so each lasts at least min(midpoint, cap), and at least min_short_length when 0 < min <= max and min <= cap |
| SceneMerger.SkippedSceneUnused | shorts.py:218-223 | a short first or last scene of a list of several scenes is part of no merged interval |
| SceneMerger.SingleScene | shorts.py:215-277 | in a one-scene list the skip rule does not apply: the scene is the output exactly when it reaches the midpoint |
| SceneMerger.CombineScenesChronological | shorts.py:225-259 | on scenes in time order the merged intervals run forward and are disjoint in time, in input order |
| SceneMerger.WorkedExample | tests/test_shorts.py:74-89 | scenes (0,5),(5,7),(7,9),(9,11),(11,13),(13,18) with min 5, max 10, cap 15 merge to exactly [(5,13)] |
| SceneMerger.ZeroCapExample | shorts.py:234-236 | with cap 0, scenes (0,20),(20,20),(20,20),(20,40) and min 5, max 10 merge to (0,20),(20,20),(20,40): a zero-length interval is emitted at the cap |
| WindowSelection.InsertSorted | shorts.py:300-304 | inserting into a longest-first list keeps it longest-first |
| WindowSelection.SortByDuration | shorts.py:300-304 | the sorted list is a permutation of the input, longest first |
| WindowSelection.SortStable | shorts.py:300-304 | intervals of equal duration keep their input order, as Python's stable `sorted(reverse=True)` |
| WindowSelection.Take | shorts.py:307 | the truncation is a prefix of length min(limit, n), and a negative limit drops that many from the end, as a Python slice |
| WindowSelection.Rank | shorts.py:300-307 | the kept list has min(scene_limit, n) intervals taken from the merged list, longest first |
| WindowSelection.RankStable | shorts.py:300-307 | among equally long intervals the ones kept are the first in input order, and they keep that order, as the stable sort followed by a slice does |
| WindowSelection.RankKeepsLongest | shorts.py:300-307 | no dropped interval is longer than any kept one |
| WindowSelection.StartRangeNonEmpty | shorts.py:323-329 | a length drawn from [min, min(max, floor(duration))] leaves a non-empty start range [floor(s), floor(e - L)] |
| WindowSelection.SceneWindows | shorts.py:321-336 | each short lies inside its kept interval: start >= floor(s), start + L <= e, min <= L <= max; the loop raises exactly when some kept interval's length range is empty, and then stops at the first such interval: every interval before it has a non-empty range and got its short |
| WindowSelection.FallbackStartRangeNonEmpty | shorts.py:355-356 | the fallback start range [min(10, floor(D) - L), floor(D - L)] is never empty |
| WindowSelection.FallbackWindow | shorts.py:345-362 | without intervals the single short is the drawn start with the drawn length, shortened only to the video's whole seconds; its start lies in [min(10, floor(D) - L), floor(D - L)]; it lies within [0, D]; it raises exactly when min > max |
| WindowSelection.ProcessVideo | shorts.py:300-362 | with intervals kept, each short is the drawn start and length and fits its interval, in ranked order, and a raise happens exactly at the first interval that cannot host one; with none kept, the single short is the drawn start with the adapted length, within the video, and it raises exactly when min > max; without a raise there is one short per kept interval, or one fallback short |
| WindowSelection.ProcessVideoNeverRaises | shorts.py:321-362 | when 0 < min <= max and min <= cap, no draw range is ever empty and there is one short per kept interval, or one fallback short |
| Render.RenderVideo | shorts.py:134-146 | between 1 and max(1, max_error_depth - depth + 1) encoder calls; every call but the last failed; success is the last call's outcome; it stops early only on success; one log line per failure, the last being the give-up line when every call failed |
| Render.CallsUntilFirstSuccess | shorts.py:134-146 | the call count is min(first success + 1, budget), and the render succeeds exactly when the first success is within the budget |
| Render.AllFail | shorts.py:141-146 | an always-failing encoder is called max_error_depth - depth + 1 times and the failure ends logged, not raised |
| Render.RetryExample | tests/test_shorts.py:91-96 | with max_error_depth 1, a failure then a success makes exactly two calls |
| Render.FrameRate | shorts.py:139 | the requested frame rate never exceeds 60; it is the clip's own when that is at most 60, and 60 when the clip has none |

## Left out

- `detect_video_scenes` (shorts.py:59-79): a call into PySceneDetect. The model takes the detected scenes as a sequence of `(start, end)` seconds. Timecodes and frame numbers only feed logging.
- `blur` (shorts.py:82-85): a SciPy Gaussian filter on floating-point arrays, so its test is outside the model.
- MoviePy calls (`subclip`, `crop`, `resize`, `fl_image`, `CompositeVideoClip`, `set_position`, `write_videofile`): only the sizes and decisions handed to them are modelled. Whether the crop box is clamped inside the frame is up to the library, so the model does not claim it. The foreground's resized height is computed by the library too; `Layout.FillGeometry` states it as an exact ratio.
- `random.randint`: replaced by parameters that must lie in the drawn range.
- `main`, directory scanning, output file names, `load_dotenv` and logging output: I/O only. Only the retry log lines of `render_video` are modelled.
- Python float semantics: ratios, `/`, `round` and durations are computed exactly, with no floating-point rounding. Ordinary inputs can give a different result from the source's floats:
  - `Geometry.CropClip`: on the height branch the source divides before it multiplies (shorts.py:115). With a target ratio not in lowest terms a near-tie can round the other way. An 83x125 source at target 20:30 gets height 124 in the model, the exact tie 124.5 rounded to even (`Geometry.CropHeightTieExample`). In the source `83 / 20 * 30` is `124.50000000000001`, so it gets 125.
  - `SceneMerger.IsShort` and `SceneMerger.Skipped`: the source subtracts floating-point seconds (shorts.py:216). A duration at a threshold can land on the other side. A scene from 40/30 s to 490/30 s lasts exactly 15 s and is not short under a 15 s minimum (`SceneMerger.ExactDurationExample`). In floats `490/30 - 40/30` is `14.999999999999998`, so the source treats it as short, and a first or last scene would be skipped.
- `Geometry.CropClip`: requires positive sizes and a positive target ratio, so the zero cases are not modelled. In the source a zero height or a zero `ratio_h` raises `ZeroDivisionError` (shorts.py:102-103). A zero `ratio_w` gives a crop of width 0 when the width is positive (shorts.py:106) and raises when the width is 0 as well (shorts.py:115). A zero width with a positive ratio gives a crop of height 0 (shorts.py:115).
- `Layout.FinalClipPlan`: requires positive source sizes and a positive target ratio, for the same reason.
- `Layout.FinalClipPlan`: assumes the library's crop returns a clip of exactly the requested size. The source reads the size back from the cropped clip (shorts.py:186), and the library may return a smaller clip when the box reaches past the frame edge.
- `Render.RenderVideo`: requires at least as many outcomes as the retry budget allows calls. The encoder is a parameter, and the model only needs outcomes for calls that can happen.
- `Render.FrameRate`: models a missing `fps` attribute as 60. An attribute that is present but `None` would make `min` raise `TypeError`, and that case is not modelled.
- `WindowSelection.SceneWindows`: an exception ends `process_video`, but the shorts already chosen were rendered before it. The model returns those shorts with `raised` set and does not model the rendering.
- Merged intervals are ranked as they come. Intervals of zero or negative duration are not filtered out first, because the code does not filter them. Such intervals cannot arise when `0 < min_short_length <= max_short_length` and `min_short_length <= max_combined_scene_length` (`Config.SaneLengths`): then every merged interval lasts at least `min_short_length` (`SceneMerger.MergedLongEnough`). With a cap of 0 they can (`SceneMerger.ZeroCapExample`).
- Re-merging merged output is not a fixpoint: two adjacent long runs would merge into one. No stability property is claimed.

=== FILE: config.dfy ===
/** The configuration bundle of one processing run (`ProcessingConfig` in shorts.py). */
module Config {

  datatype ProcessingConfig = ProcessingConfig(
    targetRatioW: int,
    targetRatioH: int,
    sceneLimit: int,
    xCenter: real,
    yCenter: real,
    maxErrorDepth: int,
    minShortLength: int,
    maxShortLength: int,
    maxCombinedSceneLength: int)
  {
    /** The target ratio is a proper positive fraction, so every ratio
        comparison and crop is defined. */
    predicate PositiveRatio()
    {
      targetRatioW > 0 && targetRatioH > 0
    }

    /** The length settings under which every merged scene can host a short:
        positive minimum, minimum not above maximum, and merged runs allowed
        to reach the minimum. */
    predicate SaneLengths()
    {
      0 < minShortLength <= maxShortLength && minShortLength <= maxCombinedSceneLength
    }
  }

  /** The point halfway between the shortest and the longest short; a real,
      since Python's `/` is true division. */
  function MiddleShortLength(cfg: ProcessingConfig): (m: real)
    ensures m - cfg.minShortLength as real == cfg.maxShortLength as real - m
    ensures cfg.minShortLength <= cfg.maxShortLength ==>
              cfg.minShortLength as real <= m <= cfg.maxShortLength as real
  {
    (cfg.minShortLength + cfg.maxShortLength) as real / 2.0
  }

  /** The defaults of the dataclass. */
  const Default := ProcessingConfig(1, 1, 6, 0.5, 0.5, 3, 15, 179, 300)
}

=== FILE: geometry.dfy ===
/** Pixel-size arithmetic of `crop_clip` and `select_background_resolution`.
    Sizes are exact integers and ratios are compared by cross-multiplication,
    so the model carries none of the rounding noise of Python floats. */
module Geometry {

  datatype Size = Size(width: int, height: int)

  /** The size and centre handed to the crop call. The centre is in pixels of
      the uncropped frame; keeping the box inside the frame is left to the
      video library. */
  datatype CropBox = CropBox(width: int, height: int, xCenter: real, yCenter: real)

  /** Multiplying by a positive factor keeps a strict order. */
  lemma MulStrict(c: int, a: int, b: int)
    requires c > 0 && a < b
    ensures c * a < c * b
  {
    assert c * b - c * a == c * (b - a);
  }

  /** `c * a <= c * b` for a positive `c` and `a <= b`. */
  lemma MulAtMost(c: int, a: int, b: int)
    requires c > 0 && a <= b
    ensures c * a <= c * b
  {
    if a < b {
      MulStrict(c, a, b);
    }
  }

  /** `c * a <= c * b` with `c` positive gives `a <= b`. */
  lemma CancelAtMost(c: int, a: int, b: int)
    requires c > 0 && c * a <= c * b
    ensures a <= b
  {
    if a > b {
      MulStrict(c, b, a);
    }
  }

  /** Python's `round(n / d)`: the nearest integer to the exact quotient,
      ties going to the even neighbour. */
  function RoundHalfEven(n: int, d: int): (r: int)
    requires d > 0
    ensures d * (2 * r - 1) <= 2 * n <= d * (2 * r + 1)
    ensures 2 * n == d * (2 * r - 1) || 2 * n == d * (2 * r + 1) ==> r % 2 == 0
  {
    var q := n / d;
    var m := n % d;
    assert n == d * q + m;
    assert 2 * n == d * (2 * q) + 2 * m;
    if 2 * m < d then
      assert d * (2 * q - 1) == d * (2 * q) - d;
      assert d * (2 * q + 1) == d * (2 * q) + d;
      q
    else if 2 * m > d then
      assert d * (2 * (q + 1) - 1) == d * (2 * q) + d;
      assert d * (2 * (q + 1) + 1) == d * (2 * q) + 3 * d;
      q + 1
    else
      assert d * (2 * q + 1) == d * (2 * q) + d;
      assert d * (2 * (q + 1) - 1) == d * (2 * q) + d;
      assert d * (2 * q - 1) == d * (2 * q) - d;
      assert d * (2 * (q + 1) + 1) == d * (2 * q) + 3 * d;
      if q % 2 == 0 then q else q + 1
  }

  /** A quotient at most `b` rounds to at most `b`. */
  lemma RoundAtMost(n: int, d: int, b: int)
    requires d > 0 && n <= d * b
    ensures RoundHalfEven(n, d) <= b
  {
    var r := RoundHalfEven(n, d);
    assert d * (2 * r - 1) <= d * (2 * b) by {
      assert d * (2 * b) == 2 * (d * b);
    }
    CancelAtMost(d, 2 * r - 1, 2 * b);
  }

  /** A quotient at least `b` rounds to at least `b`. */
  lemma RoundAtLeast(n: int, d: int, b: int)
    requires d > 0 && d * b <= n
    ensures b <= RoundHalfEven(n, d)
  {
    var r := RoundHalfEven(n, d);
    assert d * (2 * b) <= d * (2 * r + 1) by {
      assert d * (2 * b) == 2 * (d * b);
    }
    CancelAtMost(d, 2 * b, 2 * r + 1);
  }

  /** A rounded quotient that is exactly an integer is that integer. */
  lemma RoundExact(k: int, d: int)
    requires d > 0
    ensures RoundHalfEven(k * d, d) == k
  {
    assert k * d == d * k;
    RoundAtMost(k * d, d, k);
    RoundAtLeast(k * d, d, k);
  }

  /** A width that is strictly wider than the ratio `ratioW:ratioH`. */
  predicate WiderThan(width: int, height: int, ratioW: int, ratioH: int)
  {
    width * ratioH > ratioW * height
  }

  /** `crop_clip`: the crop that brings a `width` x `height` frame to the
      ratio `ratioW:ratioH` around the given centre fractions. */
  function CropClip(width: int, height: int, ratioW: int, ratioH: int,
                    xCenter: real, yCenter: real): (c: CropBox)
    requires width > 0 && height > 0 && ratioW > 0 && ratioH > 0
    // a relatively wider source keeps its height and gets the width nearest to the ratio
    ensures WiderThan(width, height, ratioW, ratioH) ==>
              && c.height == height
              && 0 <= c.width <= width
              && ratioH * (2 * c.width - 1) <= 2 * (height * ratioW) <= ratioH * (2 * c.width + 1)
              && c.width == RoundHalfEven(height * ratioW, ratioH)
    // otherwise it keeps its width and gets the height nearest to the ratio
    ensures !WiderThan(width, height, ratioW, ratioH) ==>
              && c.width == width
              && 0 <= c.height <= height
              && ratioW * (2 * c.height - 1) <= 2 * (width * ratioH) <= ratioW * (2 * c.height + 1)
              && c.height == RoundHalfEven(width * ratioH, ratioW)
    // a source already at the target ratio keeps its size
    ensures width * ratioH == ratioW * height ==> c.width == width && c.height == height
    ensures c.xCenter == width as real * xCenter && c.yCenter == height as real * yCenter
  {
    if WiderThan(width, height, ratioW, ratioH) then
      var w := RoundHalfEven(height * ratioW, ratioH);
      RoundAtLeast(height * ratioW, ratioH, 0);
      assert height * ratioW <= ratioH * width by {
        assert height * ratioW == ratioW * height;
        assert ratioH * width == width * ratioH;
      }
      RoundAtMost(height * ratioW, ratioH, width);
      CropBox(w, height, width as real * xCenter, height as real * yCenter)
    else
      var h := RoundHalfEven(width * ratioH, ratioW);
      RoundAtLeast(width * ratioH, ratioW, 0);
      assert width * ratioH <= ratioW * height;
      RoundAtMost(width * ratioH, ratioW, height);
      assert width * ratioH == ratioW * height ==> h == height by {
        if width * ratioH == ratioW * height {
          assert width * ratioH == height * ratioW;
          RoundExact(height, ratioW);
        }
      }
      CropBox(width, h, width as real * xCenter, height as real * yCenter)
  }

  /** `select_background_resolution`: the portrait canvas for a foreground
      of the given width, in six bands. */
  function BackgroundResolution(width: int): (s: Size)
    // every canvas is exactly 9:16
    ensures 16 * s.width == 9 * s.height
    ensures s.width in {720, 900, 1080, 1440, 1800, 2160}
  {
    if width < 840 then Size(720, 1280)
    else if width < 1020 then Size(900, 1600)
    else if width < 1320 then Size(1080, 1920)
    else if width < 1680 then Size(1440, 2560)
    else if width < 2040 then Size(1800, 3200)
    else Size(2160, 3840)
  }

  /** The band limits, in increasing order; a width below `BandLimits[k]`
      and at or above every earlier limit falls in band `k`. */
  const BandLimits: seq<int> := [840, 1020, 1320, 1680, 2040]

  /** Canvas widths of the six bands. */
  const CanvasWidths: seq<int> := [720, 900, 1080, 1440, 1800, 2160]

  /** The band of a width, found by scanning the limits from index `j`:
      the index of the first limit the width has not reached. */
  function BandFrom(width: int, j: nat): (k: nat)
    requires j <= |BandLimits|
    ensures j <= k <= |BandLimits|
    ensures forall i :: j <= i < k ==> BandLimits[i] <= width
    ensures k < |BandLimits| ==> width < BandLimits[k]
    decreases |BandLimits| - j
  {
    if j == |BandLimits| || width < BandLimits[j] then j
    else BandFrom(width, j + 1)
  }

  function Band(width: int): nat
  {
    BandFrom(width, 0)
  }

  /** The six-branch lookup agrees with the table: the canvas width is the
      one of the band the width falls in. */
  lemma BackgroundMatchesBands(width: int)
    ensures Band(width) < |CanvasWidths|
    ensures BackgroundResolution(width).width == CanvasWidths[Band(width)]
  {
    var k := Band(width);
    assert forall i :: 0 <= i < k ==> BandLimits[i] <= width;
    if k < |BandLimits| {
      assert width < BandLimits[k];
    }
  }

  /** A wider foreground never gets a smaller canvas. */
  lemma BackgroundMonotonic(w1: int, w2: int)
    requires w1 <= w2
    ensures BackgroundResolution(w1).width <= BackgroundResolution(w2).width
    ensures BackgroundResolution(w1).height <= BackgroundResolution(w2).height
  {
  }

  /** The widths the tests pin down, and the half-open band boundaries. */
  lemma BackgroundExamples()
    ensures BackgroundResolution(800) == Size(720, 1280)
    ensures BackgroundResolution(1500) == Size(1440, 2560)
    ensures BackgroundResolution(2100) == Size(2160, 3840)
    ensures BackgroundResolution(839) == Size(720, 1280)
    ensures BackgroundResolution(840) == Size(900, 1600)
    ensures BackgroundResolution(2039) == Size(1800, 3200)
    ensures BackgroundResolution(2040) == Size(2160, 3840)
  {
  }

  /** Cropping a 1920 x 1080 frame to 1:1 around the middle gives 1080 x 1080. */
  lemma CropToSquareExample()
    ensures CropClip(1920, 1080, 1, 1, 0.5, 0.5) == CropBox(1080, 1080, 960.0, 540.0)
  {
    RoundExact(1080, 1);
  }

  /** A tie on the height branch: 83 * 30 / 20 is exactly 124.5, which rounds
      to the even 124. The source divides before it multiplies, and in
      floating point 83 / 20 * 30 comes out just above 124.5, so it gets 125. */
  lemma CropHeightTieExample()
    ensures CropClip(83, 125, 20, 30, 0.5, 0.5) == CropBox(83, 124, 41.5, 62.5)
  {
    var h := RoundHalfEven(83 * 30, 20);
    assert 2 * (83 * 30) == 20 * (2 * 124 + 1);
    assert h == 124 || h == 125;
  }

  /** A tie: 1080 * 9 / 16 is 607.5, and Python's `round` goes to the even
      neighbour, 608. */
  lemma CropTieExample()
    ensures CropClip(1920, 1080, 9, 16, 0.5, 0.5) == CropBox(608, 1080, 960.0, 540.0)
  {
    var w := RoundHalfEven(1080 * 9, 16);
    assert 2 * (1080 * 9) == 16 * (2 * 607 + 1);
    assert w == 607 || w == 608;
  }
}

=== FILE: layout.dfy ===
/** The layout decision of `get_final_clip`: whether the foreground is
    cropped, how large it ends up, which canvas it is scaled to and which
    blurred fill, if any, goes behind it. The pixels themselves are the
    video library's business and are not modelled. */
module Layout {
  import opened Config
  import opened Geometry

  /** Base size the fill is scaled to before blurring, per fill kind. */
  const SquareBlurSize := Size(720, 720)
  const PortraitBlurSize := Size(720, 1280)

  /** The blurred background layer: the crop taken from the uncropped
      sub-clip, the size it is blurred at, and its final size. */
  datatype Fill =
    | SquareFill(source: CropBox, blurSize: Size, side: int)
    | PortraitFill(source: CropBox, blurSize: Size, canvas: Size)
    | NoFill

  /** `foreground` is the sub-clip's size after the optional crop; it is
      then resized to `resizeWidth`, keeping its aspect. */
  datatype Plan = Plan(cropped: bool, foreground: Size, resizeWidth: int, canvas: Size, fill: Fill)

  /** The foreground scaled to the canvas width is no taller than `h`:
      `fg.height * canvas.width / fg.width <= h`, cross-multiplied. */
  predicate ScaledHeightAtMost(fg: Size, canvasWidth: int, h: int)
  {
    fg.height * canvasWidth <= h * fg.width
  }

  function FinalClipPlan(source: Size, cfg: ProcessingConfig): (p: Plan)
    requires source.width > 0 && source.height > 0 && cfg.PositiveRatio()
    // the crop happens exactly when the source is wider than the target ratio
    ensures p.cropped <==> WiderThan(source.width, source.height, cfg.targetRatioW, cfg.targetRatioH)
    // and it only narrows: the height is kept
    ensures p.cropped ==> p.foreground.height == source.height && 0 <= p.foreground.width <= source.width
    ensures !p.cropped ==> p.foreground == source
    // and the cropped foreground is exactly the box `crop_clip` computes
    ensures p.cropped ==>
              var box := CropClip(source.width, source.height, cfg.targetRatioW, cfg.targetRatioH,
                                  cfg.xCenter, cfg.yCenter);
              p.foreground == Size(box.width, box.height)
    // the foreground is scaled to the width of its 9:16 canvas
    ensures p.canvas == BackgroundResolution(p.foreground.width)
    ensures p.resizeWidth == p.canvas.width
    // a landscape or square foreground gets a square fill as wide as the canvas
    ensures p.fill.SquareFill? <==> p.foreground.width >= p.foreground.height
    ensures p.fill.SquareFill? ==>
              p.fill.side == p.canvas.width
              && p.fill.source == CropClip(source.width, source.height, 1, 1, cfg.xCenter, cfg.yCenter)
    // a portrait foreground narrower than 9:16 gets a 9:16 fill the size of the canvas
    ensures p.fill.PortraitFill? <==>
              p.foreground.width < p.foreground.height && 16 * p.foreground.width < 9 * p.foreground.height
    ensures p.fill.PortraitFill? ==>
              p.fill.canvas == p.canvas
              && p.fill.source == CropClip(source.width, source.height, 9, 16, cfg.xCenter, cfg.yCenter)
  {
    var cropped := WiderThan(source.width, source.height, cfg.targetRatioW, cfg.targetRatioH);
    var fg :=
      if cropped then
        var box := CropClip(source.width, source.height, cfg.targetRatioW, cfg.targetRatioH, cfg.xCenter, cfg.yCenter);
        Size(box.width, box.height)
      else source;
    var canvas := BackgroundResolution(fg.width);
    var fill :=
      if fg.width >= fg.height then
        SquareFill(CropClip(source.width, source.height, 1, 1, cfg.xCenter, cfg.yCenter), SquareBlurSize, canvas.width)
      else if 16 * fg.width < 9 * fg.height then
        PortraitFill(CropClip(source.width, source.height, 9, 16, cfg.xCenter, cfg.yCenter), PortraitBlurSize, canvas)
      else NoFill;
    Plan(cropped, fg, canvas.width, canvas, fill)
  }

  /** What each fill means for the scaled foreground: it fits inside the
      square fill; it is taller than the 9:16 canvas when a portrait fill is
      chosen, so that fill ends up covered; and with no fill it is taller than
      wide yet no taller than the canvas. */
  lemma FillGeometry(source: Size, cfg: ProcessingConfig)
    requires source.width > 0 && source.height > 0 && cfg.PositiveRatio()
    ensures var p := FinalClipPlan(source, cfg);
            p.fill.SquareFill? ==> ScaledHeightAtMost(p.foreground, p.canvas.width, p.fill.side)
    ensures var p := FinalClipPlan(source, cfg);
            p.fill.PortraitFill? ==> !ScaledHeightAtMost(p.foreground, p.canvas.width, p.canvas.height)
    ensures var p := FinalClipPlan(source, cfg);
            p.fill.NoFill? ==>
              && ScaledHeightAtMost(p.foreground, p.canvas.width, p.canvas.height)
              && !ScaledHeightAtMost(p.foreground, p.canvas.width, p.canvas.width)
  {
    var p := FinalClipPlan(source, cfg);
    var fg, cw, ch := p.foreground, p.canvas.width, p.canvas.height;
    assert 16 * cw == 9 * ch;
    if p.fill.SquareFill? {
      assert fg.height * cw <= fg.width * cw by {
        MulAtMost(cw, fg.height, fg.width);
      }
    } else if p.fill.PortraitFill? {
      // 9 * (fg.height * cw) > 16 * fg.width * cw == 9 * ch * fg.width
      MulStrict(cw, 16 * fg.width, 9 * fg.height);
      assert 9 * (fg.height * cw) > 9 * (ch * fg.width);
    } else {
      MulAtMost(cw, 9 * fg.height, 16 * fg.width);
      assert 9 * (fg.height * cw) <= 9 * (ch * fg.width);
      MulStrict(cw, fg.width, fg.height);
    }
  }

  /** With the default 1:1 target, a 1920 x 1080 source is cropped to a
      1080 x 1080 foreground on a 1080 x 1920 canvas with a square fill. */
  lemma DefaultLandscapeExample()
    ensures var p := FinalClipPlan(Size(1920, 1080), Default);
            p.cropped && p.foreground == Size(1080, 1080) && p.canvas == Size(1080, 1920)
            && p.fill.SquareFill? && p.fill.side == 1080
  {
    CropToSquareExample();
  }
}

=== FILE: merger.dfy ===
/** `combine_scenes`: one greedy left-to-right pass over the detected scenes
    that glues short scenes into "small" runs and long scenes into "large"
    runs, and keeps a run only when it is long enough.

    A run is tracked by the indices of its first and last scene; its
    interval is the first scene's start to the last scene's end, which is
    what the source's two-element list holds. */
module SceneMerger {
  import opened Wrappers
  import opened Config
  import opened Timeline

  datatype Span = Span(first: nat, last: nat)

  /** The loop's state: the open small run, the open large run and the runs
      emitted so far. */
  datatype MergeState = MergeState(small: Option<Span>, large: Option<Span>, out: seq<Span>)

  const Start := MergeState(None, None, [])

  function SpanInterval(scenes: seq<Interval>, sp: Span): Interval
    requires sp.first < |scenes| && sp.last < |scenes|
  {
    Interval(scenes[sp.first].start, scenes[sp.last].end)
  }

  function SpanDuration(scenes: seq<Interval>, sp: Span): real
    requires sp.first < |scenes| && sp.last < |scenes|
  {
    SpanInterval(scenes, sp).Duration()
  }

  /** A scene shorter than the minimum short length. */
  predicate IsShort(scene: Interval, cfg: ProcessingConfig)
  {
    scene.Duration() < cfg.minShortLength as real
  }

  /** Durations are exact: a scene from 40/30 s to 490/30 s lasts exactly
      15 s, so with a 15 s minimum it is not short. The source subtracts
      floating-point seconds, gets just under 15, and treats it as short. */
  lemma ExactDurationExample()
    ensures !IsShort(Interval(40.0 / 30.0, 490.0 / 30.0), Default.(minShortLength := 15))
  {
    assert Interval(40.0 / 30.0, 490.0 / 30.0).Duration() == 15.0;
  }

  /** The fade-in / fade-out rule: a short first or last scene of a list of
      more than one scene is ignored. */
  predicate Skipped(scenes: seq<Interval>, cfg: ProcessingConfig, i: nat)
    requires i < |scenes|
  {
    |scenes| > 1 && (i == 0 || i == |scenes| - 1) && IsShort(scenes[i], cfg)
  }

  /** The open runs only cover scenes before index `bound`. */
  predicate OpenBelow(st: MergeState, bound: nat)
  {
    && (st.small.Some? ==> st.small.value.first < bound && st.small.value.last < bound)
    && (st.large.Some? ==> st.large.value.first < bound && st.large.value.last < bound)
  }

  /** A run grown by scene `i`, or a new run of that scene alone. */
  function Extend(run: Option<Span>, i: nat): Span
  {
    match run
    case None => Span(i, i)
    case Some(sp) => Span(sp.first, i)
  }

  /** Closing an open run: it is emitted only if it reaches the midpoint. */
  function Close(scenes: seq<Interval>, cfg: ProcessingConfig, out: seq<Span>, run: Option<Span>): seq<Span>
    requires run.Some? ==> run.value.first < |scenes| && run.value.last < |scenes|
  {
    match run
    case None => out
    case Some(sp) =>
      if SpanDuration(scenes, sp) >= MiddleShortLength(cfg) then out + [sp] else out
  }

  /** The runs closing `run` emits: the run itself when it reaches the
      midpoint, nothing otherwise. */
  function Emitted(scenes: seq<Interval>, cfg: ProcessingConfig, run: Option<Span>): seq<Span>
    requires run.Some? ==> run.value.first < |scenes| && run.value.last < |scenes|
  {
    if run.Some? && SpanDuration(scenes, run.value) >= MiddleShortLength(cfg) then [run.value] else []
  }

  /** A short scene starts or extends the small run; an extended run that
      reaches the combined-length cap is emitted at once. */
  function AddShort(scenes: seq<Interval>, cfg: ProcessingConfig, i: nat, st: MergeState): MergeState
    requires i < |scenes| && OpenBelow(st, i)
  {
    var grown := Extend(st.small, i);
    if st.small.Some? && SpanDuration(scenes, grown) >= cfg.maxCombinedSceneLength as real then
      MergeState(None, st.large, st.out + [grown])
    else
      MergeState(Some(grown), st.large, st.out)
  }

  /** One iteration of the loop, on scene `i`. */
  function Step(scenes: seq<Interval>, cfg: ProcessingConfig, i: nat, st: MergeState): (r: MergeState)
    requires i < |scenes| && OpenBelow(st, i)
    ensures OpenBelow(r, i + 1)
  {
    if Skipped(scenes, cfg, i) then st
    else if IsShort(scenes[i], cfg) then
      var added := AddShort(scenes, cfg, i, st);
      MergeState(added.small, None, Close(scenes, cfg, added.out, st.large))
    else
      MergeState(None, Some(Extend(st.large, i)), Close(scenes, cfg, st.out, st.small))
  }

  /** The rules of one iteration, output included. */
  lemma StepRules(scenes: seq<Interval>, cfg: ProcessingConfig, i: nat, st: MergeState)
    requires i < |scenes| && OpenBelow(st, i)
    // a skipped scene leaves both runs and the output untouched
    ensures var r := Step(scenes, cfg, i, st);
            Skipped(scenes, cfg, i) ==> r == st
    // a kept short scene joins the small run; a run that was already open and
    // now reaches the cap is emitted and closed at once, any other stays open;
    // the large run is closed and emitted exactly when it reaches the midpoint
    ensures var r := Step(scenes, cfg, i, st);
            var grown := Extend(st.small, i);
            var capped := st.small.Some? && SpanDuration(scenes, grown) >= cfg.maxCombinedSceneLength as real;
            !Skipped(scenes, cfg, i) && IsShort(scenes[i], cfg) ==>
              && r.large.None?
              && r.small == (if capped then None else Some(grown))
              && r.out == st.out + (if capped then [grown] else []) + Emitted(scenes, cfg, st.large)
    // a kept long scene joins the large run, which has no cap; the small run
    // is closed and emitted exactly when it reaches the midpoint
    ensures var r := Step(scenes, cfg, i, st);
            !Skipped(scenes, cfg, i) && !IsShort(scenes[i], cfg) ==>
              && r.small.None?
              && r.large == Some(Extend(st.large, i))
              && r.out == st.out + Emitted(scenes, cfg, st.small)
    // nothing emitted is ever taken back
    ensures var r := Step(scenes, cfg, i, st);
            st.out <= r.out
  {
  }

  /** The loop over scenes `i..`. */
  function Fold(scenes: seq<Interval>, cfg: ProcessingConfig, i: nat, st: MergeState): (r: MergeState)
    requires i <= |scenes| && OpenBelow(st, i)
    ensures OpenBelow(r, |scenes|)
    decreases |scenes| - i
  {
    if i == |scenes| then st
    else Fold(scenes, cfg, i + 1, Step(scenes, cfg, i, st))
  }

  /** After the loop, the open runs are closed, small first. */
  function Flush(scenes: seq<Interval>, cfg: ProcessingConfig, st: MergeState): seq<Span>
    requires OpenBelow(st, |scenes|)
  {
    Close(scenes, cfg, Close(scenes, cfg, st.out, st.small), st.large)
  }

  function CombineSpans(scenes: seq<Interval>, cfg: ProcessingConfig): seq<Span>
  {
    Flush(scenes, cfg, Fold(scenes, cfg, 0, Start))
  }

  /** The state after the first `i` scenes. */
  function StateAt(scenes: seq<Interval>, cfg: ProcessingConfig, i: nat): (r: MergeState)
    requires i <= |scenes|
    ensures OpenBelow(r, i)
  {
    if i == 0 then Start else Step(scenes, cfg, i - 1, StateAt(scenes, cfg, i - 1))
  }

  /** The shortest run that can be emitted: a small run cut at the cap, or
      any run that reached the midpoint. */
  function MinEmitted(cfg: ProcessingConfig): real
  {
    MinReal(MiddleShortLength(cfg), cfg.maxCombinedSceneLength as real)
  }

  // ---------------------------------------------------------------------
  // The loop invariant

  /** Every scene of the run is kept (not skipped) and of one kind. */
  ghost predicate Uniform(scenes: seq<Interval>, cfg: ProcessingConfig, sp: Span, short: bool)
    requires sp.last < |scenes|
  {
    forall k :: sp.first <= k <= sp.last ==> IsShort(scenes[k], cfg) == short && !Skipped(scenes, cfg, k)
  }

  /** An emitted run: within the first `bound` scenes, of one kind, and long
      enough. */
  ghost predicate GoodRun(scenes: seq<Interval>, cfg: ProcessingConfig, sp: Span, bound: nat)
    requires bound <= |scenes|
  {
    && sp.first <= sp.last < bound
    && (Uniform(scenes, cfg, sp, true) || Uniform(scenes, cfg, sp, false))
    && LongEnough(scenes, cfg, sp)
  }

  /** Why a run may be emitted: it reached the midpoint, or it is a small
      run that reached the cap. */
  ghost predicate LongEnough(scenes: seq<Interval>, cfg: ProcessingConfig, sp: Span)
    requires sp.first < |scenes| && sp.last < |scenes|
  {
    || SpanDuration(scenes, sp) >= MiddleShortLength(cfg)
    || (Uniform(scenes, cfg, sp, true) && SpanDuration(scenes, sp) >= cfg.maxCombinedSceneLength as real)
  }

  /** Runs in input order with disjoint index ranges. */
  ghost predicate Ordered(out: seq<Span>)
  {
    forall k :: 0 <= k < |out| - 1 ==> out[k].last < out[k + 1].first
  }

  ghost predicate GoodOutput(scenes: seq<Interval>, cfg: ProcessingConfig, out: seq<Span>, bound: nat)
    requires bound <= |scenes|
  {
    && Ordered(out)
    && (forall k :: 0 <= k < |out| ==> GoodRun(scenes, cfg, out[k], bound))
  }

  /** Every emitted run ends before `b`. */
  predicate EndsBefore(out: seq<Span>, b: nat)
  {
    |out| > 0 ==> out[|out| - 1].last < b
  }

  /** An open run after `i` scenes: of its kind, after everything emitted,
      and ending at the scene just processed (or the one before it when that
      was a skipped last scene). */
  ghost predicate GoodOpen(scenes: seq<Interval>, cfg: ProcessingConfig, i: nat, out: seq<Span>,
                           run: Option<Span>, short: bool)
    requires i <= |scenes|
  {
    run.Some? ==>
      var sp := run.value;
      && sp.first <= sp.last < i
      && Uniform(scenes, cfg, sp, short)
      && EndsBefore(out, sp.first)
      && (sp.last + 1 == i || (i == |scenes| && sp.last + 2 == i))
  }

  ghost predicate Inv(scenes: seq<Interval>, cfg: ProcessingConfig, i: nat, st: MergeState)
  {
    && i <= |scenes|
    && !(st.small.Some? && st.large.Some?)
    && GoodOutput(scenes, cfg, st.out, i)
    && EndsBefore(st.out, i)
    && GoodOpen(scenes, cfg, i, st.out, st.small, true)
    && GoodOpen(scenes, cfg, i, st.out, st.large, false)
  }

  lemma GoodRunWider(scenes: seq<Interval>, cfg: ProcessingConfig, sp: Span, b: nat, b': nat)
    requires b <= b' <= |scenes| && GoodRun(scenes, cfg, sp, b)
    ensures GoodRun(scenes, cfg, sp, b')
  {
  }

  /** Appending a good run that starts after everything emitted keeps the
      output good. */
  lemma AppendRun(scenes: seq<Interval>, cfg: ProcessingConfig, out: seq<Span>, sp: Span, b: nat)
    requires b <= |scenes| && GoodOutput(scenes, cfg, out, b)
    requires GoodRun(scenes, cfg, sp, b) && EndsBefore(out, sp.first)
    ensures GoodOutput(scenes, cfg, out + [sp], b)
  {
    var out' := out + [sp];
    forall k | 0 <= k < |out'|
      ensures GoodRun(scenes, cfg, out'[k], b)
    {
      if k < |out| {
        assert out'[k] == out[k];
      }
    }
  }

  lemma GoodOutputWider(scenes: seq<Interval>, cfg: ProcessingConfig, out: seq<Span>, b: nat, b': nat)
    requires b <= b' <= |scenes| && GoodOutput(scenes, cfg, out, b)
    ensures GoodOutput(scenes, cfg, out, b')
  {
    forall k | 0 <= k < |out|
      ensures GoodRun(scenes, cfg, out[k], b')
    {
      GoodRunWider(scenes, cfg, out[k], b, b');
    }
  }

  /** Closing a run of either kind keeps the output good. */
  lemma CloseKeeps(scenes: seq<Interval>, cfg: ProcessingConfig, out: seq<Span>, run: Option<Span>,
                   short: bool, i: nat, b: nat)
    requires i <= b <= |scenes|
    requires GoodOutput(scenes, cfg, out, b) && EndsBefore(out, b)
    requires GoodOpen(scenes, cfg, i, out, run, short)
    ensures run.Some? ==> run.value.first < |scenes| && run.value.last < |scenes|
    ensures GoodOutput(scenes, cfg, Close(scenes, cfg, out, run), b)
    ensures EndsBefore(Close(scenes, cfg, out, run), b)
  {
    if run.Some? && SpanDuration(scenes, run.value) >= MiddleShortLength(cfg) {
      AppendRun(scenes, cfg, out, run.value, b);
    }
  }

  lemma StepShortKeepsInv(scenes: seq<Interval>, cfg: ProcessingConfig, i: nat, st: MergeState)
    requires i < |scenes| && Inv(scenes, cfg, i, st)
    requires !Skipped(scenes, cfg, i) && IsShort(scenes[i], cfg)
    ensures Inv(scenes, cfg, i + 1, Step(scenes, cfg, i, st))
  {
    GoodOutputWider(scenes, cfg, st.out, i, i + 1);
    var added := AddShort(scenes, cfg, i, st);
    var grown := Extend(st.small, i);
    assert Uniform(scenes, cfg, grown, true);
    if st.small.Some? && SpanDuration(scenes, grown) >= cfg.maxCombinedSceneLength as real {
      AppendRun(scenes, cfg, st.out, grown, i + 1);
      assert st.large.None?;
    } else {
      assert added.out == st.out;
    }
    CloseKeeps(scenes, cfg, added.out, st.large, false, i, i + 1);
  }

  lemma StepLongKeepsInv(scenes: seq<Interval>, cfg: ProcessingConfig, i: nat, st: MergeState)
    requires i < |scenes| && Inv(scenes, cfg, i, st)
    requires !Skipped(scenes, cfg, i) && !IsShort(scenes[i], cfg)
    ensures Inv(scenes, cfg, i + 1, Step(scenes, cfg, i, st))
  {
    GoodOutputWider(scenes, cfg, st.out, i, i + 1);
    var grown := Extend(st.large, i);
    assert Uniform(scenes, cfg, grown, false);
    CloseKeeps(scenes, cfg, st.out, st.small, true, i, i + 1);
  }

  lemma StepKeepsInv(scenes: seq<Interval>, cfg: ProcessingConfig, i: nat, st: MergeState)
    requires i < |scenes| && Inv(scenes, cfg, i, st)
    ensures OpenBelow(st, i)
    ensures Inv(scenes, cfg, i + 1, Step(scenes, cfg, i, st))
  {
    if Skipped(scenes, cfg, i) {
      GoodOutputWider(scenes, cfg, st.out, i, i + 1);
    } else if IsShort(scenes[i], cfg) {
      StepShortKeepsInv(scenes, cfg, i, st);
    } else {
      StepLongKeepsInv(scenes, cfg, i, st);
    }
  }

  lemma {:induction false} FoldKeepsInv(scenes: seq<Interval>, cfg: ProcessingConfig, i: nat, st: MergeState)
    requires Inv(scenes, cfg, i, st)
    ensures OpenBelow(st, i)
    ensures Inv(scenes, cfg, |scenes|, Fold(scenes, cfg, i, st))
    decreases |scenes| - i
  {
    if i < |scenes| {
      StepKeepsInv(scenes, cfg, i, st);
      FoldKeepsInv(scenes, cfg, i + 1, Step(scenes, cfg, i, st));
    }
  }

  // ---------------------------------------------------------------------
  // The merged output

  /** The index count: `k + 1` ordered runs need at least `k + 1` scenes. */
  lemma {:induction false} RunEndsLate(scenes: seq<Interval>, cfg: ProcessingConfig, out: seq<Span>, b: nat, k: nat)
    requires b <= |scenes| && GoodOutput(scenes, cfg, out, b) && k < |out|
    ensures k <= out[k].last
    decreases k
  {
    if k > 0 {
      RunEndsLate(scenes, cfg, out, b, k - 1);
    }
  }

  /** The emitted runs: ordered, disjoint, of one kind each, each at least
      `MinEmitted` long, never more of them than scenes. */
  lemma CombineSpansGood(scenes: seq<Interval>, cfg: ProcessingConfig)
    ensures GoodOutput(scenes, cfg, CombineSpans(scenes, cfg), |scenes|)
    ensures |CombineSpans(scenes, cfg)| <= |scenes|
  {
    var n := |scenes|;
    assert Inv(scenes, cfg, 0, Start);
    FoldKeepsInv(scenes, cfg, 0, Start);
    var st := Fold(scenes, cfg, 0, Start);
    CloseKeeps(scenes, cfg, st.out, st.small, true, n, n);
    var out1 := Close(scenes, cfg, st.out, st.small);
    assert GoodOpen(scenes, cfg, n, out1, st.large, false) by {
      if st.large.Some? {
        assert out1 == st.out;
      }
    }
    CloseKeeps(scenes, cfg, out1, st.large, false, n, n);
    var out := CombineSpans(scenes, cfg);
    if |out| > 0 {
      RunEndsLate(scenes, cfg, out, n, |out| - 1);
    }
  }

  /** The run still open when the loop ends, if any. */
  function OpenRun(st: MergeState): Option<Span>
  {
    if st.small.Some? then st.small else st.large
  }

  /** The final flush: after the loop at most one run is open, and it is
      appended exactly when it reaches the midpoint. */
  lemma FlushKeepsOnlyLongRun(scenes: seq<Interval>, cfg: ProcessingConfig)
    ensures var st := Fold(scenes, cfg, 0, Start);
            var run := OpenRun(st);
            && (run.Some? ==> run.value.first < |scenes| && run.value.last < |scenes|)
            && CombineSpans(scenes, cfg) ==
                 if run.Some? && SpanDuration(scenes, run.value) >= MiddleShortLength(cfg)
                 then st.out + [run.value] else st.out
  {
    assert Inv(scenes, cfg, 0, Start);
    FoldKeepsInv(scenes, cfg, 0, Start);
  }

  /** The loop only appends to the output. */
  lemma {:induction false} FoldOutGrows(scenes: seq<Interval>, cfg: ProcessingConfig, i: nat, st: MergeState)
    requires i <= |scenes| && OpenBelow(st, i)
    ensures st.out <= Fold(scenes, cfg, i, st).out
    decreases |scenes| - i
  {
    if i < |scenes| {
      StepRules(scenes, cfg, i, st);
      FoldOutGrows(scenes, cfg, i + 1, Step(scenes, cfg, i, st));
    }
  }

  /** Running the loop from the start is running it from the state after
      the first `i` scenes. */
  lemma {:induction false} FoldFrom(scenes: seq<Interval>, cfg: ProcessingConfig, i: nat)
    requires i <= |scenes|
    ensures Fold(scenes, cfg, 0, Start) == Fold(scenes, cfg, i, StateAt(scenes, cfg, i))
    decreases i
  {
    if i > 0 {
      FoldFrom(scenes, cfg, i - 1);
    }
  }

  /** Nothing is lost: every run emitted during the first `i` scenes is in
      the final output, and that output is exactly the runs the iterations
      emitted followed by the open run when it reaches the midpoint. */
  lemma EmittedRunsKept(scenes: seq<Interval>, cfg: ProcessingConfig, i: nat)
    requires i <= |scenes|
    ensures StateAt(scenes, cfg, i).out <= CombineSpans(scenes, cfg)
    ensures var st := StateAt(scenes, cfg, |scenes|);
            CombineSpans(scenes, cfg) == st.out + Emitted(scenes, cfg, OpenRun(st))
  {
    var n := |scenes|;
    FoldFrom(scenes, cfg, i);
    FoldOutGrows(scenes, cfg, i, StateAt(scenes, cfg, i));
    FoldFrom(scenes, cfg, n);
    FlushKeepsOnlyLongRun(scenes, cfg);
  }

  /** `combine_scenes`: the merged intervals. */
  function CombineScenes(scenes: seq<Interval>, cfg: ProcessingConfig): (r: seq<Interval>)
    // never more intervals than scenes
    ensures |r| <= |scenes|
    // every interval is a cut-off small run or a run that reached the midpoint
    ensures forall k :: 0 <= k < |r| ==> r[k].Duration() >= MinEmitted(cfg)
    // each interval spans the kept scenes first..last of one emitted run
    ensures var sp := CombineSpans(scenes, cfg);
            && |r| == |sp|
            && GoodOutput(scenes, cfg, sp, |scenes|)
            && forall k :: 0 <= k < |r| ==>
                 r[k].start == scenes[sp[k].first].start && r[k].end == scenes[sp[k].last].end
  {
    CombineSpansGood(scenes, cfg);
    var sp := CombineSpans(scenes, cfg);
    seq(|sp|, k requires 0 <= k < |sp| => SpanInterval(scenes, sp[k]))
  }

  /** Every merged interval comes from a run that reached the midpoint or
      from a run of short scenes only that reached the cap; either way it is
      at least `MinEmitted` long. */
  lemma MergedLongEnough(scenes: seq<Interval>, cfg: ProcessingConfig)
    ensures var sp := CombineSpans(scenes, cfg);
            forall k :: 0 <= k < |sp| ==>
              && sp[k].first <= sp[k].last < |scenes|
              && CombineScenes(scenes, cfg)[k] == SpanInterval(scenes, sp[k])
              && (|| SpanDuration(scenes, sp[k]) >= MiddleShortLength(cfg)
                  || (&& SpanDuration(scenes, sp[k]) >= cfg.maxCombinedSceneLength as real
                      && forall j :: sp[k].first <= j <= sp[k].last ==> IsShort(scenes[j], cfg)))
    ensures forall x :: x in CombineScenes(scenes, cfg) ==> x.Duration() >= MinEmitted(cfg)
    // with sane lengths no merged interval is shorter than the minimum short
    ensures cfg.SaneLengths() ==>
              forall x :: x in CombineScenes(scenes, cfg) ==> x.Duration() >= cfg.minShortLength as real
  {
    var r := CombineScenes(scenes, cfg);
    var sp := CombineSpans(scenes, cfg);
    forall k | 0 <= k < |sp|
      ensures LongEnough(scenes, cfg, sp[k])
    {
      assert GoodRun(scenes, cfg, sp[k], |scenes|);
    }
    forall x | x in r
      ensures x.Duration() >= MinEmitted(cfg)
    {
      var k :| 0 <= k < |r| && r[k] == x;
    }
  }

  /** No emitted interval touches a skipped first or last scene. */
  lemma SkippedSceneUnused(scenes: seq<Interval>, cfg: ProcessingConfig, i: nat)
    requires i < |scenes| && Skipped(scenes, cfg, i)
    ensures forall k :: 0 <= k < |CombineSpans(scenes, cfg)| ==>
              !(CombineSpans(scenes, cfg)[k].first <= i <= CombineSpans(scenes, cfg)[k].last)
  {
    CombineSpansGood(scenes, cfg);
    var out := CombineSpans(scenes, cfg);
    forall k | 0 <= k < |out|
      ensures !(out[k].first <= i <= out[k].last)
    {
      assert GoodRun(scenes, cfg, out[k], |scenes|);
    }
  }

  /** A list of one scene is not subject to the skip rule: the scene is kept
      exactly when it reaches the midpoint, however short it is. */
  lemma SingleScene(scene: Interval, cfg: ProcessingConfig)
    ensures CombineScenes([scene], cfg) ==
            if scene.Duration() >= MiddleShortLength(cfg) then [scene] else []
  {
    var scenes := [scene];
    assert !Skipped(scenes, cfg, 0);
    var st := Step(scenes, cfg, 0, Start);
    assert Fold(scenes, cfg, 0, Start) == Fold(scenes, cfg, 1, st);
    assert SpanInterval(scenes, Span(0, 0)) == scene;
    if IsShort(scene, cfg) {
      assert st == MergeState(Some(Span(0, 0)), None, []);
    } else {
      assert st == MergeState(None, Some(Span(0, 0)), []);
    }
  }

  /** Scenes in time order: each runs forward and the next starts no earlier
      than it ends. */
  predicate Chronological(scenes: seq<Interval>)
  {
    && (forall k :: 0 <= k < |scenes| ==> scenes[k].start <= scenes[k].end)
    && (forall k :: 0 <= k < |scenes| - 1 ==> scenes[k].end <= scenes[k + 1].start)
  }

  lemma {:induction false} ChronologicalGap(scenes: seq<Interval>, a: nat, b: nat)
    requires Chronological(scenes) && a < b < |scenes|
    ensures scenes[a].end <= scenes[b].start
    decreases b - a
  {
    if a + 1 < b {
      ChronologicalGap(scenes, a + 1, b);
    }
  }

  /** On scenes in time order the merged intervals run forward and are
      disjoint in time, in input order. */
  lemma CombineScenesChronological(scenes: seq<Interval>, cfg: ProcessingConfig)
    requires Chronological(scenes)
    ensures var r := CombineScenes(scenes, cfg);
            forall k :: 0 <= k < |r| - 1 ==> r[k].end <= r[k + 1].start
    ensures var r := CombineScenes(scenes, cfg);
            forall k :: 0 <= k < |r| ==> r[k].start <= r[k].end
  {
    var r := CombineScenes(scenes, cfg);
    var sp := CombineSpans(scenes, cfg);
    forall k | 0 <= k < |r| - 1
      ensures r[k].end <= r[k + 1].start
    {
      assert sp[k].last < sp[k + 1].first;
      ChronologicalGap(scenes, sp[k].last, sp[k + 1].first);
    }
    forall k | 0 <= k < |r|
      ensures r[k].start <= r[k].end
    {
      assert GoodRun(scenes, cfg, sp[k], |scenes|);
      if sp[k].first < sp[k].last {
        ChronologicalGap(scenes, sp[k].first, sp[k].last);
      }
    }
  }

  /** Six scenes with min 5, max 10 and cap 15 (midpoint 7.5): the long
      first scene is dropped when the short run interrupts it, the four
      short scenes form (5, 13), and the long last scene stays below the
      midpoint. */
  lemma WorkedExample()
    ensures CombineScenes(
              [Interval(0.0, 5.0), Interval(5.0, 7.0), Interval(7.0, 9.0),
               Interval(9.0, 11.0), Interval(11.0, 13.0), Interval(13.0, 18.0)],
              Default.(minShortLength := 5, maxShortLength := 10, maxCombinedSceneLength := 15))
            == [Interval(5.0, 13.0)]
  {
    var scenes := [Interval(0.0, 5.0), Interval(5.0, 7.0), Interval(7.0, 9.0),
                   Interval(9.0, 11.0), Interval(11.0, 13.0), Interval(13.0, 18.0)];
    var cfg := Default.(minShortLength := 5, maxShortLength := 10, maxCombinedSceneLength := 15);
    var s1 := Step(scenes, cfg, 0, Start);
    assert s1 == MergeState(None, Some(Span(0, 0)), []);
    var s2 := Step(scenes, cfg, 1, s1);
    assert s2 == MergeState(Some(Span(1, 1)), None, []);
    var s3 := Step(scenes, cfg, 2, s2);
    assert s3 == MergeState(Some(Span(1, 2)), None, []);
    var s4 := Step(scenes, cfg, 3, s3);
    assert s4 == MergeState(Some(Span(1, 3)), None, []);
    var s5 := Step(scenes, cfg, 4, s4);
    assert s5 == MergeState(Some(Span(1, 4)), None, []);
    var s6 := Step(scenes, cfg, 5, s5);
    assert s6 == MergeState(None, Some(Span(5, 5)), [Span(1, 4)]);
    assert Fold(scenes, cfg, 0, Start) == s6 by {
      assert Fold(scenes, cfg, 6, s6) == s6;
      assert Fold(scenes, cfg, 5, s5) == s6;
      assert Fold(scenes, cfg, 4, s4) == s6;
      assert Fold(scenes, cfg, 3, s3) == s6;
      assert Fold(scenes, cfg, 2, s2) == s6;
      assert Fold(scenes, cfg, 1, s1) == s6;
    }
    assert CombineSpans(scenes, cfg) == [Span(1, 4)];
  }

  /** With a cap of 0 (below the minimum short length) a run of two
      zero-length scenes is emitted at the cap, giving an interval of no
      duration. */
  lemma ZeroCapExample()
    ensures var r := CombineScenes(
              [Interval(0.0, 20.0), Interval(20.0, 20.0), Interval(20.0, 20.0), Interval(20.0, 40.0)],
              Default.(minShortLength := 5, maxShortLength := 10, maxCombinedSceneLength := 0));
            && |r| == 3
            && r[0] == Interval(0.0, 20.0) && r[1] == Interval(20.0, 20.0) && r[2] == Interval(20.0, 40.0)
  {
    var scenes := [Interval(0.0, 20.0), Interval(20.0, 20.0), Interval(20.0, 20.0), Interval(20.0, 40.0)];
    var cfg := Default.(minShortLength := 5, maxShortLength := 10, maxCombinedSceneLength := 0);
    ZeroCapSpans(scenes, cfg);
  }

  /** The runs of `ZeroCapExample`, step by step. */
  lemma ZeroCapSpans(scenes: seq<Interval>, cfg: ProcessingConfig)
    requires scenes == [Interval(0.0, 20.0), Interval(20.0, 20.0), Interval(20.0, 20.0), Interval(20.0, 40.0)]
    requires cfg == Default.(minShortLength := 5, maxShortLength := 10, maxCombinedSceneLength := 0)
    ensures CombineSpans(scenes, cfg) == [Span(0, 0), Span(1, 2), Span(3, 3)]
  {
    assert MiddleShortLength(cfg) == 7.5;
    var s1 := Step(scenes, cfg, 0, Start);
    assert s1 == MergeState(None, Some(Span(0, 0)), []);
    var s2 := Step(scenes, cfg, 1, s1);
    assert s2 == MergeState(Some(Span(1, 1)), None, [Span(0, 0)]);
    var s3 := Step(scenes, cfg, 2, s2);
    assert s3 == MergeState(None, None, [Span(0, 0), Span(1, 2)]);
    var s4 := Step(scenes, cfg, 3, s3);
    assert s4 == MergeState(None, Some(Span(3, 3)), [Span(0, 0), Span(1, 2)]);
    assert Fold(scenes, cfg, 0, Start) == s4 by {
      assert Fold(scenes, cfg, 4, s4) == s4;
      assert Fold(scenes, cfg, 3, s3) == s4;
      assert Fold(scenes, cfg, 2, s2) == s4;
      assert Fold(scenes, cfg, 1, s1) == s4;
    }
  }
}

=== FILE: render.dfy ===
/** `render_video`: hand the clip to the encoder, and on an exception log it
    and try again one level deeper, until `max_error_depth` is reached; the
    last failure is logged and not raised. The encoder's behaviour is the
    sequence `outcomes`, `outcomes[k]` telling whether call `k` succeeds. */
module Render {
  import opened Wrappers

  datatype LogEntry =
    | Retrying(depth: int)       // "Rendering failed, retrying..."
    | GaveUp(depth: int)         // "Rendering failed after multiple attempts."

  datatype Status = Written | FailedAndLogged

  datatype RenderResult = RenderResult(calls: nat, status: Status, log: seq<LogEntry>)

  /** The most encoder calls a render started at `depth` can make. */
  function AttemptBudget(depth: int, maxErrorDepth: int): (n: nat)
    ensures n >= 1
    ensures depth <= maxErrorDepth ==> n == maxErrorDepth - depth + 1
  {
    if depth < maxErrorDepth then maxErrorDepth - depth + 1 else 1
  }

  function RenderVideo(outcomes: seq<bool>, depth: int, maxErrorDepth: int): (r: RenderResult)
    requires |outcomes| >= AttemptBudget(depth, maxErrorDepth)
    ensures 1 <= r.calls <= AttemptBudget(depth, maxErrorDepth)
    // every call but the last failed
    ensures forall k :: 0 <= k < r.calls - 1 ==> !outcomes[k]
    // success is the outcome of the last call
    ensures r.status == Written <==> outcomes[r.calls - 1]
    // it stops early only on success
    ensures r.calls < AttemptBudget(depth, maxErrorDepth) ==> r.status == Written
    // one log line per failed call; the last is the give-up line on failure
    ensures |r.log| == if r.status == Written then r.calls - 1 else r.calls
    ensures r.status == FailedAndLogged ==> r.log[|r.log| - 1] == GaveUp(depth + r.calls - 1)
    ensures forall k :: 0 <= k < r.calls - 1 ==> r.log[k] == Retrying(depth + k)
    decreases |outcomes|
  {
    if outcomes[0] then
      RenderResult(1, Written, [])
    else if depth < maxErrorDepth then
      var rest := RenderVideo(outcomes[1..], depth + 1, maxErrorDepth);
      RenderResult(rest.calls + 1, rest.status, [Retrying(depth)] + rest.log)
    else
      RenderResult(1, FailedAndLogged, [GaveUp(depth)])
  }

  /** The first call that succeeds, or `|outcomes|` if none does. */
  function FirstSuccess(outcomes: seq<bool>): (k: nat)
    ensures k <= |outcomes|
    ensures k < |outcomes| ==> outcomes[k]
    ensures forall j :: 0 <= j < k ==> !outcomes[j]
  {
    if |outcomes| == 0 || outcomes[0] then 0 else 1 + FirstSuccess(outcomes[1..])
  }

  /** The call count is fixed by the first success: it stops there if that
      is within the budget, and after the whole budget otherwise. */
  lemma {:induction false} CallsUntilFirstSuccess(outcomes: seq<bool>, depth: int, maxErrorDepth: int)
    requires |outcomes| >= AttemptBudget(depth, maxErrorDepth)
    ensures var r := RenderVideo(outcomes, depth, maxErrorDepth);
            var budget := AttemptBudget(depth, maxErrorDepth);
            && r.calls == Min(FirstSuccess(outcomes) + 1, budget)
            && (r.status == Written <==> FirstSuccess(outcomes) < budget)
    decreases |outcomes|
  {
    if !outcomes[0] && depth < maxErrorDepth {
      CallsUntilFirstSuccess(outcomes[1..], depth + 1, maxErrorDepth);
    }
  }

  /** A render that always fails makes `max_error_depth - depth + 1` calls
      and ends logged, not raised. */
  lemma AllFail(n: nat, depth: int, maxErrorDepth: int)
    requires depth <= maxErrorDepth && n == maxErrorDepth - depth + 1
    ensures var r := RenderVideo(seq(n, _ => false), depth, maxErrorDepth);
            r.calls == n && r.status == FailedAndLogged
  {
    var outcomes := seq(n, _ => false);
    CallsUntilFirstSuccess(outcomes, depth, maxErrorDepth);
    assert FirstSuccess(outcomes) == n;
  }

  /** One failure then a success, with `max_error_depth` 1: two calls. */
  lemma RetryExample()
    ensures RenderVideo([false, true], 0, 1) == RenderResult(2, Written, [Retrying(0)])
  {
  }

  /** The frame rate asked of the encoder: the clip's, capped at 60; 60 when
      the clip has none. */
  function FrameRate(clipFps: Option<real>): (fps: real)
    ensures fps <= 60.0
    ensures clipFps.Some? && clipFps.value <= 60.0 ==> fps == clipFps.value
    ensures clipFps.Some? && clipFps.value > 60.0 ==> fps == 60.0
    ensures clipFps.None? ==> fps == 60.0
  {
    match clipFps
    case None => 60.0
    case Some(f) => MinReal(f, 60.0)
  }
}

=== FILE: selection.dfy ===
/** The selection half of `process_video`: rank the merged intervals by
    duration, keep the first `scene_limit`, and pick a short inside each
    (or, with none, one inside the whole video). The random draws are
    parameters; each must lie in the range `random.randint` would draw from. */
module WindowSelection {
  import opened Wrappers
  import opened Config
  import opened Timeline
  import opened SceneMerger

  // ---------------------------------------------------------------------
  // Ranking

  /** Longest first. */
  ghost predicate ByDurationDesc(s: seq<Interval>)
  {
    forall i, j :: 0 <= i < j < |s| ==> s[j].Duration() <= s[i].Duration()
  }

  /** The intervals of `s` with duration `d`, in order. */
  function WithDuration(s: seq<Interval>, d: real): (r: seq<Interval>)
    ensures |r| <= |s|
  {
    if |s| == 0 then []
    else if s[0].Duration() == d then [s[0]] + WithDuration(s[1..], d)
    else WithDuration(s[1..], d)
  }

  lemma WithDurationCons(x: Interval, s: seq<Interval>, d: real)
    ensures WithDuration([x] + s, d) == (if x.Duration() == d then [x] else []) + WithDuration(s, d)
  {
    assert ([x] + s)[1..] == s;
  }

  /** Places `x` before the first interval no longer than it, so it stays
      ahead of equally long intervals that came after it. */
  function Insert(x: Interval, s: seq<Interval>): (r: seq<Interval>)
    ensures multiset(r) == multiset(s) + multiset{x}
  {
    if |s| == 0 || s[0].Duration() <= x.Duration() then
      [x] + s
    else
      assert s == [s[0]] + s[1..];
      [s[0]] + Insert(x, s[1..])
  }

  /** Inserting into a list sorted longest first keeps it sorted. */
  lemma {:induction false} InsertSorted(x: Interval, s: seq<Interval>)
    requires ByDurationDesc(s)
    ensures ByDurationDesc(Insert(x, s))
  {
    if |s| == 0 || s[0].Duration() <= x.Duration() {
    } else {
      var rest := Insert(x, s[1..]);
      InsertSorted(x, s[1..]);
      forall y | y in rest
        ensures y.Duration() <= s[0].Duration()
      {
        assert y in multiset(rest);
        if y != x {
          assert y in s[1..];
        }
      }
      var r := [s[0]] + rest;
      forall i, j | 0 <= i < j < |r|
        ensures r[j].Duration() <= r[i].Duration()
      {
        assert r[j] == rest[j - 1];
        if i > 0 {
          assert r[i] == rest[i - 1];
        }
      }
    }
  }

  /** Inserting keeps, for every duration, the order of the intervals of
      that duration, with `x` first among them. */
  lemma {:induction false} InsertStable(x: Interval, s: seq<Interval>, d: real)
    ensures WithDuration(Insert(x, s), d) == WithDuration([x] + s, d)
  {
    WithDurationCons(x, s, d);
    if |s| == 0 || s[0].Duration() <= x.Duration() {
    } else {
      InsertStable(x, s[1..], d);
      WithDurationCons(s[0], Insert(x, s[1..]), d);
      WithDurationCons(x, s[1..], d);
      WithDurationCons(s[0], s[1..], d);
      assert [s[0]] + s[1..] == s;
    }
  }

  /** Python's `sorted(..., key=duration, reverse=True)`: a stable sort,
      longest first. */
  function SortByDuration(s: seq<Interval>): (r: seq<Interval>)
    ensures multiset(r) == multiset(s) && |r| == |s|
    ensures ByDurationDesc(r)
  {
    if |s| == 0 then []
    else
      assert s == [s[0]] + s[1..];
      InsertSorted(s[0], SortByDuration(s[1..]));
      Insert(s[0], SortByDuration(s[1..]))
  }

  /** Stability: intervals of equal duration keep their input order. */
  lemma {:induction false} SortStable(s: seq<Interval>, d: real)
    ensures WithDuration(SortByDuration(s), d) == WithDuration(s, d)
  {
    if |s| > 0 {
      SortStable(s[1..], d);
      InsertStable(s[0], SortByDuration(s[1..]), d);
      WithDurationCons(s[0], SortByDuration(s[1..]), d);
      WithDurationCons(s[0], s[1..], d);
      assert [s[0]] + s[1..] == s;
    }
  }

  /** Python's `s[:limit]`: a negative limit counts from the end. */
  function Take(s: seq<Interval>, limit: int): (r: seq<Interval>)
    ensures limit >= 0 ==> |r| == Min(limit, |s|)
    ensures limit < 0 ==> |r| == if |s| + limit < 0 then 0 else |s| + limit
    ensures r == s[..|r|]
  {
    if limit >= |s| then s
    else if limit >= 0 then s[..limit]
    else if |s| + limit < 0 then []
    else s[..|s| + limit]
  }

  /** The truncated sorted list of `process_video`. */
  function Rank(merged: seq<Interval>, limit: int): (r: seq<Interval>)
    ensures limit >= 0 ==> |r| == Min(limit, |merged|)
    ensures multiset(r) <= multiset(merged)
    ensures ByDurationDesc(r)
  {
    var sorted := SortByDuration(merged);
    var r := Take(sorted, limit);
    var tail := sorted[|r|..];
    assert sorted == r + tail;
    assert multiset(sorted) == multiset(r) + multiset(tail);
    r
  }

  /** Equally long intervals survive the cut in input order: for every
      duration, the kept ones are the first of that duration, in order. */
  lemma RankStable(merged: seq<Interval>, limit: int)
    ensures forall d :: WithDuration(Rank(merged, limit), d) <= WithDuration(merged, d)
  {
    var r := Rank(merged, limit);
    assert r == SortByDuration(merged)[..|r|];
    SortedPrefixStable(merged, |r|);
  }

  /** A prefix of the sorted list holds, for every duration, the first
      intervals of that duration in input order. */
  lemma SortedPrefixStable(s: seq<Interval>, n: nat)
    requires n <= |s|
    ensures forall d :: WithDuration(SortByDuration(s)[..n], d) <= WithDuration(s, d)
  {
    forall d
      ensures WithDuration(SortByDuration(s)[..n], d) <= WithDuration(s, d)
    {
      SortStable(s, d);
      WithDurationPrefix(SortByDuration(s), n, d);
    }
  }

  /** Filtering a prefix gives a prefix of the filtered list. */
  lemma {:induction false} WithDurationPrefix(s: seq<Interval>, n: nat, d: real)
    requires n <= |s|
    ensures WithDuration(s[..n], d) <= WithDuration(s, d)
  {
    if n > 0 {
      WithDurationPrefix(s[1..], n - 1, d);
      assert s[..n][1..] == s[1..][..n - 1];
    }
  }

  /** Truncation keeps the longest: nothing dropped is longer than anything
      kept. */
  lemma RankKeepsLongest(merged: seq<Interval>, limit: int)
    ensures var r := Rank(merged, limit);
            forall x, y :: x in r && y in multiset(merged) - multiset(r) ==> y.Duration() <= x.Duration()
  {
    var sorted := SortByDuration(merged);
    var r := Rank(merged, limit);
    assert r == sorted[..|r|];
    DroppedIsTail(sorted, |r|);
    SplitNoLonger(sorted, |r|);
    forall x, y | x in r && y in multiset(merged) - multiset(r)
      ensures y.Duration() <= x.Duration()
    {
      assert y in sorted[|r|..];
    }
  }

  /** What a prefix leaves out of a list is its suffix. */
  lemma DroppedIsTail(s: seq<Interval>, n: nat)
    requires n <= |s|
    ensures multiset(s) - multiset(s[..n]) == multiset(s[n..])
  {
    assert s == s[..n] + s[n..];
  }

  lemma SplitNoLonger(sorted: seq<Interval>, n: nat)
    requires ByDurationDesc(sorted) && n <= |sorted|
    ensures forall x, y :: x in sorted[..n] && y in sorted[n..] ==> y.Duration() <= x.Duration()
  {
    forall x, y | x in sorted[..n] && y in sorted[n..]
      ensures y.Duration() <= x.Duration()
    {
      var i :| 0 <= i < n && sorted[..n][i] == x;
      var j :| 0 <= j < |sorted| - n && sorted[n..][j] == y;
      assert sorted[i] == x && sorted[n + j] == y;
    }
  }

  // ---------------------------------------------------------------------
  // Windows

  /** A short: whole seconds from `start`, `length` seconds long. */
  datatype Window = Window(start: int, length: int)

  /** The inclusive range of `random.randint(lo, hi)`; empty ranges raise. */
  datatype IntRange = IntRange(lo: int, hi: int)
  {
    predicate Empty()
    {
      hi < lo
    }

    predicate Contains(v: int)
    {
      lo <= v <= hi
    }
  }

  /** The short lengths drawn for an interval: from the minimum to the
      maximum, capped by the interval's whole seconds. */
  function LengthRange(iv: Interval, cfg: ProcessingConfig): IntRange
  {
    IntRange(cfg.minShortLength, Min(cfg.maxShortLength, iv.Duration().Floor))
  }

  /** The start points drawn for a short of `length` inside an interval. */
  function StartRange(iv: Interval, length: int): IntRange
  {
    IntRange(iv.start.Floor, (iv.end - length as real).Floor)
  }

  /** The draws for each interval lie in the ranges they are drawn from,
      whenever the length range is not empty. */
  ghost predicate ValidDraws(kept: seq<Interval>, cfg: ProcessingConfig, lengths: seq<int>, starts: seq<int>)
  {
    && |lengths| == |kept| && |starts| == |kept|
    && forall k :: 0 <= k < |kept| && !LengthRange(kept[k], cfg).Empty() ==>
         LengthRange(kept[k], cfg).Contains(lengths[k]) && StartRange(kept[k], lengths[k]).Contains(starts[k])
  }

  /** A drawn length fits its interval, so its start range is never empty. */
  lemma StartRangeNonEmpty(iv: Interval, cfg: ProcessingConfig, length: int)
    requires LengthRange(iv, cfg).Contains(length)
    ensures !StartRange(iv, length).Empty()
  {
    assert length as real <= iv.Duration();
    assert iv.start <= iv.end - length as real;
  }

  /** The shorts of the scene branch, one per kept interval; `raised` when
      `random.randint` meets an empty length range, which ends the loop. */
  datatype Selection = Selection(windows: seq<Window>, raised: bool)

  /** A window inside its interval, within the length bounds. */
  predicate Fits(w: Window, iv: Interval, cfg: ProcessingConfig)
  {
    && cfg.minShortLength <= w.length <= cfg.maxShortLength
    && iv.start.Floor <= w.start
    && w.start as real + w.length as real <= iv.end
  }

  function SceneWindows(kept: seq<Interval>, cfg: ProcessingConfig, lengths: seq<int>, starts: seq<int>): (r: Selection)
    requires ValidDraws(kept, cfg, lengths, starts)
    ensures |r.windows| <= |kept|
    ensures forall j :: 0 <= j < |r.windows| ==> Fits(r.windows[j], kept[j], cfg)
    ensures forall j :: 0 <= j < |r.windows| ==> r.windows[j] == Window(starts[j], lengths[j])
    // the loop stops exactly at the first interval too short to host a short
    ensures r.raised <==> exists k :: 0 <= k < |kept| && LengthRange(kept[k], cfg).Empty()
    ensures !r.raised ==> |r.windows| == |kept|
    ensures r.raised ==> |r.windows| < |kept| && LengthRange(kept[|r.windows|], cfg).Empty()
    ensures forall j :: 0 <= j < |r.windows| ==> !LengthRange(kept[j], cfg).Empty()
  {
    if |kept| == 0 then Selection([], false)
    else if LengthRange(kept[0], cfg).Empty() then Selection([], true)
    else
      assert ValidDraws(kept[1..], cfg, lengths[1..], starts[1..]) by {
        forall k | 0 <= k < |kept| - 1 && !LengthRange(kept[1..][k], cfg).Empty()
          ensures LengthRange(kept[1..][k], cfg).Contains(lengths[1..][k])
          ensures StartRange(kept[1..][k], lengths[1..][k]).Contains(starts[1..][k])
        {
          assert kept[1..][k] == kept[k + 1];
        }
      }
      var rest := SceneWindows(kept[1..], cfg, lengths[1..], starts[1..]);
      var w := Window(starts[0], lengths[0]);
      assert Fits(w, kept[0], cfg) by {
        var iv := kept[0];
        assert (iv.end - lengths[0] as real).Floor as real <= iv.end - lengths[0] as real;
      }
      assert rest.raised ==> exists k :: 0 <= k < |kept| && LengthRange(kept[k], cfg).Empty() by {
        if rest.raised {
          var k :| 0 <= k < |kept[1..]| && LengthRange(kept[1..][k], cfg).Empty();
          assert kept[1..][k] == kept[k + 1];
        }
      }
      assert (exists k :: 0 <= k < |kept| && LengthRange(kept[k], cfg).Empty()) ==> rest.raised by {
        if exists k :: 0 <= k < |kept| && LengthRange(kept[k], cfg).Empty() {
          var k :| 0 <= k < |kept| && LengthRange(kept[k], cfg).Empty();
          assert k > 0;
          assert kept[1..][k - 1] == kept[k];
        }
      }
      Selection([w] + rest.windows, rest.raised)
  }

  // ---------------------------------------------------------------------
  // Fallback when no interval survives

  /** The fallback's length: a drawn length, capped by the video's whole
      seconds when the video is shorter than the longest short. */
  function FallbackLength(duration: real, cfg: ProcessingConfig, drawn: int): int
  {
    if duration < cfg.maxShortLength as real then Min(duration.Floor, drawn) else drawn
  }

  /** Start points of the fallback: from at most second 10 up to the last
      start that still fits. */
  function FallbackStartRange(duration: real, length: int): IntRange
  {
    IntRange(Min(10, duration.Floor - length), (duration - length as real).Floor)
  }

  /** The start range of the fallback is never empty. */
  lemma FallbackStartRangeNonEmpty(duration: real, length: int)
    ensures !FallbackStartRange(duration, length).Empty()
  {
    assert (duration - length as real).Floor == duration.Floor - length;
  }

  function FallbackWindow(duration: real, cfg: ProcessingConfig, drawnLength: int, drawnStart: int): (r: Selection)
    requires duration >= 0.0
    requires cfg.minShortLength <= cfg.maxShortLength ==>
               && IntRange(cfg.minShortLength, cfg.maxShortLength).Contains(drawnLength)
               && FallbackStartRange(duration, FallbackLength(duration, cfg, drawnLength)).Contains(drawnStart)
    // only the length draw can raise: when the minimum exceeds the maximum
    ensures r.raised <==> cfg.maxShortLength < cfg.minShortLength
    ensures !r.raised ==> |r.windows| == 1
    ensures r.raised ==> r.windows == []
    // the window lies within the video and is no longer than the drawn length
    ensures forall w :: w in r.windows ==>
              && 0 <= w.start
              && w.start as real + w.length as real <= duration
              && w.length as real <= duration
              && w.length <= drawnLength
              && (w.length < drawnLength ==> w.length == duration.Floor)
    // the short is the drawn start with the adapted length, so it starts at
    // most at second 10 and no later than the last start that fits
    ensures !r.raised ==> r.windows == [Window(drawnStart, FallbackLength(duration, cfg, drawnLength))]
    ensures !r.raised ==> FallbackStartRange(duration, r.windows[0].length).Contains(r.windows[0].start)
  {
    if cfg.maxShortLength < cfg.minShortLength then Selection([], true)
    else
      var length := FallbackLength(duration, cfg, drawnLength);
      assert (duration - length as real).Floor == duration.Floor - length;
      assert duration.Floor - length >= 0;
      Selection([Window(drawnStart, length)], false)
  }

  // ---------------------------------------------------------------------
  // The whole selection

  /** How many shorts a selection that does not raise renders: one per kept
      interval, or the single fallback short when none is kept. */
  function Max1(n: nat): nat
  {
    if n == 0 then 1 else n
  }

  /** `process_video` without the I/O: merge, rank, truncate, then pick
      one short per kept interval, or one fallback short when none is kept. */
  function ProcessVideo(scenes: seq<Interval>, duration: real, cfg: ProcessingConfig,
                        lengths: seq<int>, starts: seq<int>,
                        fallbackLength: int, fallbackStart: int): (r: Selection)
    requires duration >= 0.0
    requires ValidDraws(Rank(CombineScenes(scenes, cfg), cfg.sceneLimit), cfg, lengths, starts)
    requires cfg.minShortLength <= cfg.maxShortLength ==>
               && IntRange(cfg.minShortLength, cfg.maxShortLength).Contains(fallbackLength)
               && FallbackStartRange(duration, FallbackLength(duration, cfg, fallbackLength)).Contains(fallbackStart)
    // with intervals kept: one short inside each, in ranked order, until an
    // interval too short to host one raises
    ensures var kept := Rank(CombineScenes(scenes, cfg), cfg.sceneLimit);
            |kept| > 0 ==>
              && |r.windows| <= |kept|
              && (forall j :: 0 <= j < |r.windows| ==> Fits(r.windows[j], kept[j], cfg))
              && (r.raised <==> exists k :: 0 <= k < |kept| && LengthRange(kept[k], cfg).Empty())
              && (forall j :: 0 <= j < |r.windows| ==> r.windows[j] == Window(starts[j], lengths[j]))
              && (forall j :: 0 <= j < |r.windows| ==> !LengthRange(kept[j], cfg).Empty())
              && (r.raised ==> |r.windows| < |kept| && LengthRange(kept[|r.windows|], cfg).Empty())
    // with none kept: one short inside the whole video, unless min > max
    ensures var kept := Rank(CombineScenes(scenes, cfg), cfg.sceneLimit);
            |kept| == 0 ==>
              && (r.raised <==> cfg.maxShortLength < cfg.minShortLength)
              && |r.windows| <= 1
              && (forall w :: w in r.windows ==> 0 <= w.start && w.start as real + w.length as real <= duration)
              && (!r.raised ==> r.windows == [Window(fallbackStart, FallbackLength(duration, cfg, fallbackLength))])
    // without a raise there is one short per kept interval, or one fallback short
    ensures var kept := Rank(CombineScenes(scenes, cfg), cfg.sceneLimit);
            !r.raised ==> |r.windows| == Max1(|kept|)
  {
    var kept := Rank(CombineScenes(scenes, cfg), cfg.sceneLimit);
    if |kept| > 0 then SceneWindows(kept, cfg, lengths, starts)
    else FallbackWindow(duration, cfg, fallbackLength, fallbackStart)
  }

  /** With sane length settings every merged interval can host a short, so
      the selection never raises and every kept interval gets a short. */
  lemma ProcessVideoNeverRaises(scenes: seq<Interval>, duration: real, cfg: ProcessingConfig,
                                lengths: seq<int>, starts: seq<int>,
                                fallbackLength: int, fallbackStart: int)
    requires cfg.SaneLengths() && duration >= 0.0
    requires ValidDraws(Rank(CombineScenes(scenes, cfg), cfg.sceneLimit), cfg, lengths, starts)
    requires IntRange(cfg.minShortLength, cfg.maxShortLength).Contains(fallbackLength)
    requires FallbackStartRange(duration, FallbackLength(duration, cfg, fallbackLength)).Contains(fallbackStart)
    ensures var r := ProcessVideo(scenes, duration, cfg, lengths, starts, fallbackLength, fallbackStart);
            !r.raised && |r.windows| == Max1(|Rank(CombineScenes(scenes, cfg), cfg.sceneLimit)|)
  {
    var kept := Rank(CombineScenes(scenes, cfg), cfg.sceneLimit);
    MergedLongEnough(scenes, cfg);
    RankedHostShorts(CombineScenes(scenes, cfg), cfg, cfg.sceneLimit);
    if |kept| > 0 {
      var r := SceneWindows(kept, cfg, lengths, starts);
      assert !r.raised;
    }
  }

  /** Ranking only keeps intervals of the merged list, so if each of those
      can host a short, so can each kept one. */
  lemma RankedHostShorts(merged: seq<Interval>, cfg: ProcessingConfig, limit: int)
    requires cfg.SaneLengths()
    requires forall x :: x in merged ==> x.Duration() >= MinEmitted(cfg)
    ensures forall k :: 0 <= k < |Rank(merged, limit)| ==> !LengthRange(Rank(merged, limit)[k], cfg).Empty()
  {
    var kept := Rank(merged, limit);
    forall k | 0 <= k < |kept|
      ensures !LengthRange(kept[k], cfg).Empty()
    {
      assert kept[k] in multiset(kept);
      assert kept[k] in merged;
      HostsShort(kept[k], cfg);
    }
  }

  /** An interval at least `MinEmitted` long has room for a short under
      sane length settings. */
  lemma HostsShort(iv: Interval, cfg: ProcessingConfig)
    requires cfg.SaneLengths() && iv.Duration() >= MinEmitted(cfg)
    ensures !LengthRange(iv, cfg).Empty()
  {
    assert cfg.minShortLength as real <= iv.Duration();
    assert cfg.minShortLength <= iv.Duration().Floor;
  }

}

=== FILE: timeline.dfy ===
/** Scene boundaries in seconds. A detected scene and a combined run of
    scenes are both a `(start, end)` pair of time points; only their seconds
    matter to the decisions modelled here. */
module Timeline {

  datatype Interval = Interval(start: real, end: real)
  {
    function Duration(): real
    {
      end - start
    }
  }
}

=== FILE: wrappers.dfy ===
/** The optional value used for the source's `None`-or-value variables, and
    the minimum of two integers (pixel and second counts) or two reals
    (durations), as Python's `min`. */
module Wrappers {

  datatype Option<+T> = None | Some(value: T)

  function Min(a: int, b: int): (m: int)
    ensures m <= a && m <= b
    ensures m == a || m == b
  {
    if a <= b then a else b
  }

  function MinReal(a: real, b: real): (m: real)
    ensures m <= a && m <= b
    ensures m == a || m == b
  {
    if a <= b then a else b
  }
}
